=== FILE: README.md ===
# Cart, checkout and access decisions of a small e-commerce storefront

This project models the decision logic of a React storefront and its Express
backend. It covers:

- the **cart**: an ordered list of lines `{_id, name, price, image, quantity}`
  keyed by product id. The product grid (`ProductList.js`) and the header's
  cart drawer (`Header.js`) each keep a copy, and they share one browser
  storage slot named `cart`. Each write is followed by a `cart-updated`
  broadcast.
- the **cart checkout** in the header. It checks the guards, asks for a gateway
  order for the cart total, opens the payment widget, sends one save per line
  on success, and clears the cart only when every save succeeded.
- "buy now" on a single product card.
- the **access decisions**: the server's `isAdmin` middleware, the client's
  `ProtectedRoute`, the role dispatch in `App.js`, and the admin dashboard's
  status colours.

Prices are whole rupees (`nat`), so every total is exact. Quantities are
`int`, because a stored cart may hold any number. `Cart.Valid` (one line per
id, every quantity at least one) is the invariant the operations keep.
Network replies, widget callbacks and the clock are inputs or events. The
storage slot is a value: it is empty, holds text that does not parse, or
holds a cart.

Modules: `Wrappers` (Option, JavaScript truthiness), `Cart`, `CartStorage`,
`ProductListCart`, `HeaderCart`, `Storefront` (both components on one page),
`Checkout`, `Buy`, `Access`, `StatusColors`.

Three behaviours of the code are easy to miss, and the model keeps them:

- When a save fails after payment, the whole cart is kept: `Promise.all`
  rejects and nothing is cleared, not even the lines whose saves succeeded.
- When the slot is empty or does not parse, the header keeps the cart it
  already had. Only the grid's add falls back to the empty cart.
- The drawer's quantity and delete buttons, and the grid's add, stay usable
  while a checkout is in flight. The saves cover the cart as it was when
  Checkout was pressed, but a fully saved payment empties the whole cart,
  so a line added in between is cleared without being paid for.

## Model

| member | source | states |
|---|---|---|
| Cart.FindIndex | client/src/components/ProductList.js:116-118 | returns -1 exactly when no line has the id; otherwise the index of the first line with that id |
| Cart.Add | client/src/components/ProductList.js:116-136 | the product's id is present afterwards; the length grows by one exactly when it was absent |
| Cart.AddKeepsOtherIds | client/src/components/ProductList.js:121-136 | every existing line keeps its id in its place, so every other product is in the cart afterwards exactly when it was before |
| Cart.AddExisting | client/src/components/ProductList.js:116-127 | adding a product already in the cart raises the first matching line's quantity by exactly 1; length, the other lines and their order are unchanged |
| Cart.AddAbsent | client/src/components/ProductList.js:134-136 | adding an absent product appends one line with quantity 1 at the end |
| Cart.AddPreservesValid | client/src/components/ProductList.js:116-136 | add keeps at most one line per id and every quantity at least 1 |
| Cart.AddTwiceToEmpty | client/src/components/ProductList.js:116-136 | adding the same product twice to an empty cart gives one line with quantity 2 |
| Cart.AddCountAndTotal | client/src/components/ProductList.js:121-136 | every add raises the item count by 1, and the total by the price of the bumped line's stored snapshot or of the new product |
| Cart.Remove | client/src/components/Header.js:162-163 | a line survives exactly when it was in the cart and has another id; no line with the id remains; a cart without the id is returned unchanged |
| Cart.RemoveAppend | client/src/components/Header.js:163 | removal distributes over concatenation, so the surviving lines keep their relative order |
| Cart.RemoveFirst | client/src/components/Header.js:163 | in a cart with unique ids, removing the first line's id leaves exactly the remaining lines |
| Cart.RemoveSplice | client/src/components/ProductList.js:172-175 | in a cart with unique ids, removing line k's id cuts out exactly line k |
| Cart.RemovePreservesValid | client/src/components/Header.js:162-165 | removal keeps the cart invariant |
| Cart.RemoveCountAndTotal | client/src/components/Header.js:162-165 | removing line k lowers the item count by its quantity and the total by its price times quantity |
| Cart.WithQuantity | client/src/components/Header.js:151-153 | same length; the lines with the id take the new quantity, every other line is unchanged and in place |
| Cart.SetQuantity | client/src/components/ProductList.js:168-188 | below 1 no line with the id is left; otherwise the length and the set of present ids are unchanged; every line with another id survives |
| Cart.SetQuantityEffect | client/src/components/ProductList.js:172-187 | below 1 the update cuts out line k; otherwise it equals replacing only line k's quantity |
| Cart.SetQuantityPreservesValid | client/src/components/ProductList.js:168-188 | a quantity update keeps the cart invariant in both branches |
| Cart.SetQuantityCount | client/src/components/Header.js:151-157 | setting line k to n moves the item count by n minus the old quantity, and the total by the price times that difference |
| Cart.ItemCount | client/src/components/Header.js:125-127 | the reduce loop returns the sum of the quantities; with positive quantities it is at least the number of lines (same code at ProductList.js:201-203) |
| Cart.CartTotal | client/src/components/Header.js:131-133 | the reduce loop returns the sum of price times quantity; 0 for the empty cart; never negative for positive quantities |
| CartStorage.ReadOr | client/src/components/ProductList.js:104-113 | a slot holding a cart reads as that cart; an empty or unparseable slot silently reads as the fallback (the parse error is only logged; the header's read at Header.js:67-74 falls back to the cart it has) |
| ProductListCart.AddToCart | client/src/components/ProductList.js:90-152 | without a user only the warning is shown and nothing changes; otherwise the stored cart gains one item, the grid and the slot hold the same result, and the message reports a quantity exactly when the product was already present, that quantity being the stored line's plus one |
| ProductListCart.AddToCartIsAdd | client/src/components/ProductList.js:104-146 | signed in, the grid's result is the cart add applied to the stored cart (empty when absent or unparseable): the first line with the id gains one and the others stay in place, or the product's line is appended; a valid stored cart stays valid |
| ProductListCart.AddToCartReadsSlot | client/src/components/ProductList.js:103-113 | the add starts from the stored cart, never the grid's copy; an empty or unparseable slot yields a one-line cart |
| ProductListCart.UpdateQuantity | client/src/components/ProductList.js:168-188 | the slot ends holding the new cart; the "removed" message appears exactly when n < 1; below 1 no line with the id is left; an absent id changes nothing |
| HeaderCart.Reload | client/src/components/Header.js:66-75 | a slot holding a cart replaces the header's cart; an empty or unparseable slot leaves the header as it was |
| HeaderCart.RemoveFromCart | client/src/components/Header.js:162-171 | drops the id's lines and keeps the others; writes the result to the slot; asks the drawer to close exactly when the result is empty |
| HeaderCart.UpdateQuantity | client/src/components/Header.js:143-160 | below 1 it is exactly `RemoveFromCart`; otherwise length and drawer state are kept and nothing asks the drawer to close |
| HeaderCart.ReloadAfterChange | client/src/components/Header.js:62-95 | the header's own broadcast re-read after its writes changes nothing |
| HeaderCart.CopiesAgree | client/src/components/Header.js:143-157 | the header's quantity update and the grid's copy (ProductList.js:168-188) compute the same cart and write the same slot |
| Storefront.Open | client/src/components/ProductList.js:41-70 | after page load the grid, the header and the slot agree; a stored cart is what the grid shows; an empty or unparseable slot opens both components on the empty cart and the grid's save effect writes the empty cart back |
| Storefront.Act | client/src/components/ProductList.js:90-188 | a grid action leaves the header's cart alone and a header action leaves the grid's; everything except an add without a user broadcasts, and that add changes nothing |
| Storefront.StepAsWritten | client/src/components/ProductList.js:53-70 | as written, the grid keeps the cart its own action produced (it has no listener), and after a broadcast the header shows the stored cart |
| Storefront.Step | client/src/components/Header.js:62-95 | with the grid listening too, after a broadcast of a stored cart both the grid and the header show it; the slot is what the acting component wrote |
| Storefront.ReloadShowsSameCart | client/src/components/ProductList.js:53-62 | with the grid listening, reloading the page after any action shows, in both components, the cart they were already showing |
| Storefront.StepKeepsSynced | client/src/components/ProductList.js:65-70 | with the grid also listening to the broadcast, every cart action keeps grid, header and slot in agreement; an add without a user changes nothing |
| Storefront.RemovedLineStaysRemoved | client/src/components/Header.js:162-166 | with the grid listening, a line removed in the header stays removed after a quantity change in the grid |
| Storefront.StaleGridRestoresRemovedLine | client/src/components/ProductList.js:168-188 | as written, removing "a" in the header and then pressing "+" on "b" in the grid writes "a" back to the slot and the header |
| Checkout.SaveRequests | client/src/components/Header.js:216-226 | one save per line, in line order, each for price times quantity with status "paid", the user's id and the payment id |
| Checkout.Step | client/src/components/Header.js:143-274 | the request log only grows; the checkout events leave the cart untouched except for emptying it after every save succeeded; the drawer's edits and another component's broadcast change the cart at any phase, exactly as the header's own quantity update, removal and re-read do, and leave the attempt, the log and the message alone. Unlike the code, it keeps the "processing" flag set until the attempt ends (see `Checkout.StepAsWritten`) |
| Checkout.StepAsWritten | client/src/components/Header.js:264-273 | the code as written: the flag is cleared as soon as the gateway has answered, even when the widget has just opened; requests, cart and phase are those of `Checkout.Step` |
| Checkout.Press | client/src/components/Header.js:567-568 | a checkout press while the flag is set or the cart is empty does nothing (the button is disabled); an enabled press, and every other event, reaches the handler unchanged |
| Checkout.PressAsWritten | client/src/components/Header.js:264-273 | a press is ignored while the flag is set and otherwise runs the as-written handler when the cart is not empty, and the request log only grows; with the early reset the flag is clear during the widget and the saves |
| Checkout.GuardsSendNothing | client/src/components/Header.js:175-191 | no user is reported before an empty cart, and neither sends a request or changes the cart |
| Checkout.ClickRequestsTotal | client/src/components/Header.js:193-203 | otherwise exactly one gateway order is requested, for the cart total in INR, and the cart is taken as the attempt's snapshot |
| Checkout.SavedAmountIsTotal | client/src/components/Header.js:196-224 | the save amounts add up to the gateway order's amount |
| Checkout.PaymentSavesEveryLine | client/src/components/Header.js:213-226 | the success callback sends exactly one save per snapshot line, with the buyer's id and the payment id, and leaves the cart alone |
| Checkout.GatewayFailureEndsAttempt | client/src/components/Header.js:265-273 | a failed gateway order sends nothing more, keeps the cart and the slot, clears the flag, ends the attempt and shows "Checkout failed" with the message |
| Checkout.DismissKeepsCart | client/src/components/Header.js:256-260 | dismissing the widget sends nothing, keeps the cart and the slot, and ends the attempt |
| Checkout.SettleClearsOnlyOnFullSuccess | client/src/components/Header.js:227-246 | the cart and the slot are emptied exactly when every save succeeded; after any failure both are untouched and the "save failed" warning is shown |
| Checkout.PressKeepsConsistent | client/src/components/Header.js:256-273 | with the flag kept until the attempt ends, the flag is set exactly while an attempt is in flight, and a press during an attempt does nothing |
| Checkout.RunKeepsConsistent | client/src/components/Header.js:143-274 | over any sequence of events, cart edits included, the flag stays in step with the attempt and the request log only grows; a sequence without cart edits leaves the cart as it was or empty |
| Checkout.EditKeepsAttempt | client/src/components/Header.js:494-530 | a drawer edit or a broadcast re-read during an attempt changes neither the attempt (so not the snapshot the saves will cover) nor the flag nor the requests |
| Checkout.LateLineClearedUnsaved | client/src/components/Header.js:213-238 | a line the grid adds while the gateway order is still pending gets no save, yet the fully saved payment empties the cart including that line |
| Checkout.TwoLinesAllSaved | client/src/components/Header.js:213-238 | a paid two-line cart whose saves both succeed requests the total once, saves each line once, and ends empty |
| Checkout.TwoLinesOneSaveFails | client/src/components/Header.js:239-246 | with the second save failing, both lines stay in the cart and the slot, and each line was submitted once |
| Checkout.AsWrittenReopensCheckout | client/src/components/Header.js:271-273 | as written, the button is enabled while the widget is open, and a second press requests a second gateway order |
| Checkout.AsWrittenReopensDuringSaves | client/src/components/Header.js:271-273 | as written, after the payment and while the saves are pending the button is enabled, and a press requests another gateway order for the cart being saved |
| Buy.BuyNow | client/src/components/ProductList.js:205-282 | no user sends nothing; otherwise the first request is a gateway order for the product's price; a save follows exactly when the order was created and the widget reported a payment, for the price with status "paid"; success is reported only after the save |
| Buy.BuyIsOneLineCheckout | client/src/components/ProductList.js:218-241 | buying directly asks for the same gateway amount and sends the same save as checking out a cart holding only that product |
| Access.RequestEmail | server/middleware/admin.js:5-6 | a non-blank `email` wins; otherwise the first `emails` entry's value; a blank or absent `email` with no `emails` entry, and no user, give `undefined` |
| Access.AdminGate | server/middleware/admin.js:4-15 | 401 "Not authenticated" exactly when no usable email; 403 exactly for a usable email other than the admin's; `next()` exactly for the admin's |
| Access.AdminGateCases | server/middleware/admin.js:8-14 | no session always gets 401, never 403; the admin's address passes as `email` or as the first `emails` entry |
| Access.ProtectedRoute | client/src/components/ProtectedRoute.js:6-12 | no user redirects to "/" whatever `adminOnly` is; admin-only denies exactly the non-admins; everything else renders the children |
| Access.RouteAgreesWithGate | client/src/components/ProtectedRoute.js:8-10 | for a user with an `email`, the client's admin-only check and the server's gate agree; a profile with the address only in `emails` passes the server and is denied by the client |
| Access.Dispatch | client/src/App.js:27-58 | an unknown user sees only the loading view; a signed-out user gets the login page on every path; the admin gets the dashboard on "/" and "/admin/*"; other users get products on "/" and "/shop"; every other path redirects to "/" |
| Access.RedirectLandsOnRolePage | client/src/App.js:38-56 | every redirect lands on "/", which is one of that role's pages |
| Access.DispatchRespectsGuards | client/src/App.js:38-46 | the dashboard is shown only to users the admin-only route and the server gate admit; products only to users the admin-only route turns away |
| Access.ListOrders | server/routes/order.js:65-77 | behind the admin gate the order listing is served exactly to the admin's address, and a request without a session gets 401 |
| Access.ListOrdersAsWritten | server/routes/order.js:65-77 | as written, every request is served the full order list, whoever sends it, including every request the admin gate would refuse |
| Access.OrdersLeakWithoutGate | server/routes/order.js:65-77 | as written, a request without any session receives all orders |
| StatusColors.Lower | client/src/components/AdminDashboard.js:37 | same length; each character is the lower-case form of the input's |
| StatusColors.StatusColor | client/src/components/AdminDashboard.js:36-49 | success, warning, error and default exactly for "completed", "pending", "failed" and "cancelled" in any letter case; a missing status is "info" |
| StatusColors.LowerMatches | client/src/components/AdminDashboard.js:37 | lower-casing hits a lower-case target exactly when the status equals it up to case |
| StatusColors.ColorIgnoresCase | client/src/components/AdminDashboard.js:37 | statuses equal up to letter case get the same colour |
| StatusColors.ListedStatuses | client/src/components/AdminDashboard.js:37-45 | the four listed statuses map to success, warning, error and default; a missing status maps to info |
| StatusColors.UpperCaseStatus | client/src/components/AdminDashboard.js:37-39 | "COMPLETED" is coloured success, like "completed" |
| StatusColors.PaidIsInfo | client/src/components/AdminDashboard.js:46-47 | "paid", the status the checkout writes, falls to info |

## Findings

| source | as written | input that shows it | evidently intended | confidence | as-written member | corrected member |
|---|---|---|---|---|---|---|
| client/src/components/Header.js:271-273 | the handler's `finally` clears the "processing" flag as soon as the widget has opened | a one-line cart; press Checkout; the gateway creates the order; pay in the widget; press Checkout again while the saves are pending: a second gateway order is requested (a press while the widget is still open does the same, if the widget's overlay lets it through) | the flag stays set until the widget is dismissed or the saves settle, as the dismiss callback at Header.js:256-260 clearing it shows; a second press does nothing | medium, not executed | Checkout.AsWrittenReopensDuringSaves | Checkout.PressKeepsConsistent |
| client/src/components/ProductList.js:168-188 | the grid has no `cart-updated` listener, and its quantity update starts from its own copy of the cart | cart [a, b] shown by both; remove "a" in the header; press "+" on "b" in the grid: the slot holds [a, b(2)] | the grid re-reads the slot on the broadcast without writing it back, as the header does at Header.js:62-95 (a re-read that fed the grid's save effect would write and broadcast again without end) | medium, not executed | Storefront.StaleGridRestoresRemovedLine | Storefront.StepKeepsSynced |
| server/routes/order.js:65-77 | the all-orders route is registered without the `isAdmin` middleware that the file imports at line 4 | GET /api/all-orders with no session | the route sits behind `isAdmin`, as the comment above it says | high, not executed | Access.OrdersLeakWithoutGate | Access.ListOrders |

## Left out

- Rendering, styling, snackbar timing, the spinner timeouts of the quantity controls, and the random ratings are presentation. Snackbar messages are kept as notices.
- Serialisation is left out. A stored value that parses but is not a list (for example `null`) makes the add throw, and the code then shows "Failed to add item to cart". The model has no such slot.
- The window events are modelled as a synchronous re-read by the listeners. The `open-cart-drawer` event and the header's admin check, which skips the cart listener for the admin, are left out.
- ProductListCart.AddToCart: a new line keeps only the five cart fields. The code's spread also copies the product's other fields, such as description and original price, which nothing in the cart reads.
- Checkout.Step: one attempt is tracked at a time. An event that arrives in the wrong phase is ignored. With the as-written flag, a second attempt replaces the first in the model, while in the browser both widgets' callbacks stay live.
- `Promise.all` rejects at the first failed save, without waiting for the others. The model delivers every outcome in one event, which leaves the same cart and message.
- The serialisation round trip `JSON.parse(JSON.stringify(c))` is not modelled: a slot that holds a cart reads back as that cart by construction.
- Checkout.RunKeepsConsistent: the cart is promised to stay as it was or end empty only for runs without cart edits. With edits the cart can end in any shape the edits produce, and a full success still empties it.
- The widget's amount comes from the gateway reply, in paise. The server's `Math.round(amount * 100)` conversion and the prefilled contact details are not modelled. The receipt text `cart_<Date.now()>` is kept as a timestamp input.
- Buy.BuyNow: does not model the card's "processing" flag. That flag has the same early reset in its `finally` as the checkout's.
- StatusColors.Lower: lower-cases ASCII letters only. JavaScript's `toLowerCase` also maps non-ASCII letters.
- Access.Dispatch: paths are given as lists of segments. The router's case-insensitive matching and its trailing-slash handling are not modelled.
- Quantities are whole numbers. A fractional quantity is not modelled.
- Prices are whole rupees. Floating-point prices, the discount percentage, and locale price formatting are not modelled.
- Mongoose persistence and population, the mail notification, passport and session wiring, the gateway order creation on the server, and the login page's choice between two sign-in URLs are thin wrappers over libraries that are not part of this model.

=== FILE: access.dfy ===
/** Who may see what: the server's admin middleware, the client's
    `ProtectedRoute`, and the top-level role dispatch of the client app.
    All three compare against one fixed admin address. */
module Access {
  import opened Wrappers

  const AdminEmail: string := "eshitabhawsar@gmail.com"

  /** A signed-in user as the server session or `current_user` hands it over:
      a direct `email` field and, in the identity provider's profile shape,
      a list of `emails` entries whose `value` may be missing. */
  datatype User = User(id: string, displayName: string,
                       email: Option<string>, emails: Option<seq<Option<string>>>)

  // ---------------------------------------------------------------------
  // Server: the isAdmin middleware

  /** The JavaScript value of `req.user?.email || (req.user?.emails &&
      req.user.emails[0]?.value)`: `None` stands for `undefined`. A blank
      `email` falls through to the list; an empty list gives `undefined`. */
  function RequestEmail(user: Option<User>): (e: Option<string>)
    ensures user.Some? && Truthy(user.value.email) ==> e == user.value.email
    ensures (user.Some? && !Truthy(user.value.email) && user.value.emails.Some? &&
             |user.value.emails.value| > 0) ==> e == user.value.emails.value[0]
    ensures (user.Some? && !Truthy(user.value.email) &&
             (user.value.emails.None? || |user.value.emails.value| == 0)) ==> e.None?
    ensures e.Some? ==> user.Some?
  {
    if user.None? then None
    else if Truthy(user.value.email) then user.value.email
    else if user.value.emails.None? || |user.value.emails.value| == 0 then None
    else user.value.emails.value[0]
  }

  /** What the middleware does: answer with a status and an error, or pass
      the request on with `next()`. */
  datatype Gate = Reject(status: int, error: string) | Next

  /** `isAdmin`: 401 without a usable email, 403 for any other address than
      the admin's, otherwise `next()`. */
  function AdminGate(user: Option<User>): (g: Gate)
    ensures g == Reject(401, "Not authenticated") <==> !Truthy(RequestEmail(user))
    ensures (g == Reject(403, "Access denied: Not an admin")) <==>
              (Truthy(RequestEmail(user)) && RequestEmail(user) != Some(AdminEmail))
    ensures g.Next? <==> RequestEmail(user) == Some(AdminEmail)
    ensures g.Reject? ==> g.status == 401 || g.status == 403
  {
    var email := RequestEmail(user);
    if !Truthy(email) then Reject(401, "Not authenticated")
    else if email.value != AdminEmail then Reject(403, "Access denied: Not an admin")
    else Next
  }

  /** No session always gives 401, never 403, whatever else holds; the
      admin's address as `email`, or as the first `emails` entry when
      `email` is blank or absent, passes. */
  lemma AdminGateCases(u: User)
    ensures AdminGate(None) == Reject(401, "Not authenticated")
    ensures u.email == Some(AdminEmail) ==> AdminGate(Some(u)).Next?
    ensures (!Truthy(u.email) && u.emails.Some? && |u.emails.value| > 0 &&
             u.emails.value[0] == Some(AdminEmail)) ==> AdminGate(Some(u)).Next?
    ensures Truthy(u.email) && u.email != Some(AdminEmail) ==> AdminGate(Some(u)).status == 403
  {
  }

  // ---------------------------------------------------------------------
  // Client: ProtectedRoute

  /** The client-side admin test: the `email` field alone is compared. */
  predicate IsAdminUser(u: User) {
    u.email == Some(AdminEmail)
  }

  /** What `ProtectedRoute` renders. */
  datatype Guarded = RedirectTo(path: string) | AccessDenied | Children

  /** `ProtectedRoute`: no user redirects to "/", an admin-only route denies
      anyone but the admin, and everything else renders the children. */
  function ProtectedRoute(user: Option<User>, adminOnly: bool): (v: Guarded)
    ensures user.None? <==> v == RedirectTo("/")
    ensures v == AccessDenied <==> user.Some? && adminOnly && !IsAdminUser(user.value)
    ensures v == Children <==> user.Some? && (!adminOnly || IsAdminUser(user.value))
  {
    if user.None? then RedirectTo("/")
    else if adminOnly && user.value.email != Some(AdminEmail) then AccessDenied
    else Children
  }

  /** Where the client and the server agree: for a user with a usable
      `email` field, the admin-only route renders exactly when the server's
      gate passes. They differ for a profile whose address is only in
      `emails`: the server admits it, the client denies it. */
  lemma RouteAgreesWithGate(u: User)
    ensures Truthy(u.email) ==> (ProtectedRoute(Some(u), true) == Children <==> AdminGate(Some(u)).Next?)
    ensures u.email.None? && u.emails == Some([Some(AdminEmail)]) ==>
              AdminGate(Some(u)).Next? && ProtectedRoute(Some(u), true) == AccessDenied
  {
  }

  // ---------------------------------------------------------------------
  // Client: App's role dispatch

  /** The `user` state of the app: not yet known (`undefined`), known to be
      signed out (`null` or the empty body `current_user` sends), or a user. */
  datatype Session = Unresolved | SignedOut | SignedIn(user: User)

  /** The page the app renders for a path. */
  datatype Page = Loading | Login | Dashboard | Products | RedirectHome

  /** What is on screen: whether the header is mounted, and the page. */
  datatype Screen = Screen(header: bool, page: Page)

  /** A path as its segments: "/" is [], "/admin/orders" is ["admin", "orders"]. */
  type Path = seq<string>

  /** The admin's routes: "/" and everything under "/admin/". */
  predicate AdminRoute(path: Path) {
    path == [] || path[0] == "admin"
  }

  /** The shopper's routes: "/" and "/shop". */
  predicate ShopRoute(path: Path) {
    path == [] || path == ["shop"]
  }

  /** `App`: loading until the user is known; the login page on every path
      when signed out; otherwise the header plus the role's routes, with any
      other path redirected to "/". */
  function Dispatch(session: Session, path: Path): (s: Screen)
    ensures session.Unresolved? <==> s == Screen(false, Loading)
    ensures session.SignedOut? <==> s == Screen(false, Login)
    ensures session.SignedIn? <==> s.header
    ensures s.page == Dashboard <==> session.SignedIn? && IsAdminUser(session.user) && AdminRoute(path)
    ensures s.page == Products <==> session.SignedIn? && !IsAdminUser(session.user) && ShopRoute(path)
    ensures s.page == RedirectHome <==>
              (session.SignedIn? &&
               if IsAdminUser(session.user) then !AdminRoute(path) else !ShopRoute(path))
  {
    match session
    case Unresolved => Screen(false, Loading)
    case SignedOut => Screen(false, Login)
    case SignedIn(u) =>
      if u.email == Some(AdminEmail) then
        Screen(true, if path == [] || path[0] == "admin" then Dashboard else RedirectHome)
      else
        Screen(true, if path == [] || path == ["shop"] then Products else RedirectHome)
  }

  /** Every redirect lands on a page the same user can see: "/" is always
      one of the role's routes. */
  lemma RedirectLandsOnRolePage(u: User, path: Path)
    ensures Dispatch(SignedIn(u), path).page == RedirectHome ==>
              Dispatch(SignedIn(u), []).page == (if IsAdminUser(u) then Dashboard else Products)
  {
  }

  /** The app shows the dashboard only to users `ProtectedRoute` would let
      through an admin-only route and whom the server's gate admits; the
      product list only to users an admin-only route would turn away. */
  lemma DispatchRespectsGuards(u: User, path: Path)
    ensures Dispatch(SignedIn(u), path).page == Dashboard ==>
              ProtectedRoute(Some(u), true) == Children && AdminGate(Some(u)).Next?
    ensures Dispatch(SignedIn(u), path).page == Products ==>
              ProtectedRoute(Some(u), true) == AccessDenied && ProtectedRoute(Some(u), false) == Children
  {
  }

  // ---------------------------------------------------------------------
  // The order listing the admin dashboard reads

  /** What a request for the list of all orders gets. */
  datatype Listing = Refused(status: int) | AllOrders

  /** The order listing as written: the route is registered without the
      admin middleware, so every request is served. */
  function ListOrdersAsWritten(user: Option<User>): (l: Listing)
    ensures l.AllOrders?
    ensures AdminGate(user).Reject? ==> ListOrders(user) != l
  {
    AllOrders
  }

  /** The order listing behind the admin middleware, as the route's comment
      and the unused `isAdmin` import intend. */
  function ListOrders(user: Option<User>): (l: Listing)
    ensures l.AllOrders? <==> RequestEmail(user) == Some(AdminEmail)
    ensures user.None? ==> l == Refused(401)
  {
    match AdminGate(user)
    case Next => AllOrders
    case Reject(status, _) => Refused(status)
  }

  /** As written, a request with no session at all receives every order;
      behind the gate the same request is refused with 401. */
  lemma OrdersLeakWithoutGate()
    ensures ListOrdersAsWritten(None) == AllOrders
    ensures ListOrders(None) == Refused(401)
  {
  }
}

=== FILE: buy.dfy ===
/** "Buy now" on a single product card: a gateway order for the product's
    price, then one save when the widget reports a payment. The cart is not
    involved. Each later input only matters once the earlier step has
    happened. */
module Buy {
  import opened Wrappers
  import opened Cart
  import Access
  import opened Checkout

  /** How the payment widget ended. */
  datatype WidgetOutcome = Paid(paymentId: string) | Dismissed

  /** The message the grid shows after a purchase attempt. */
  datatype BuyNotice =
    | LoginToBuy                     // warning: not signed in
    | PaymentFailed(message: string) // the gateway order could not be created
    | PaymentSucceeded(paymentId: string)
    | PaidButNotSaved                // the save request failed
    | Silent                         // the widget was dismissed

  /** The requests sent and the message shown. */
  datatype BuyRun = BuyRun(sent: seq<Request>, notice: BuyNotice)

  /** `handleBuy`: the requests one purchase attempt sends. */
  function BuyNow(user: Option<Access.User>, p: Product, reply: GatewayReply,
                  widget: WidgetOutcome, saved: bool): (r: BuyRun)
    ensures user.None? <==> r.notice == LoginToBuy
    ensures user.None? ==> r.sent == []
    ensures user.Some? ==> 1 <= |r.sent| <= 2 && r.sent[0] == CreateOrder(p.price, "INR", ProductReceipt(p.id))
    ensures |r.sent| == 2 <==> user.Some? && reply.OrderCreated? && widget.Paid?
    ensures |r.sent| == 2 ==> r.sent[1] == SaveOrder(p.id, user.value.id, widget.paymentId, p.price, "paid")
    ensures r.notice.PaymentSucceeded? ==> |r.sent| == 2 && saved
  {
    if user.None? then BuyRun([], LoginToBuy)
    else
      var create := CreateOrder(p.price, Currency, ProductReceipt(p.id));
      match reply
      case GatewayError(message) => BuyRun([create], PaymentFailed(message))
      case OrderCreated(_) =>
        match widget
        case Dismissed => BuyRun([create], Silent)
        case Paid(paymentId) =>
          var save := SaveOrder(p.id, user.value.id, paymentId, p.price, PaidStatus);
          BuyRun([create, save], if saved then PaymentSucceeded(paymentId) else PaidButNotSaved)
  }

  /** Buying a product directly asks for the same amounts as checking out a
      cart holding just that product once: the gateway amount is that cart's
      total, and the one save is the save the cart checkout would send. */
  lemma BuyIsOneLineCheckout(u: Access.User, p: Product, orderId: string, paymentId: string, saved: bool)
    ensures var r := BuyNow(Some(u), p, OrderCreated(orderId), Paid(paymentId), saved);
            && r.sent[0].amount == Total([NewLine(p)])
            && r.sent[1..] == SaveRequests([NewLine(p)], u.id, paymentId)
  {
    SumSnoc([], NewLine(p), Subtotal);
    assert [] + [NewLine(p)] == [NewLine(p)];
  }
}

=== FILE: cart.dfy ===
/** The client-side cart: an ordered sequence of lines keyed by product id,
    and the pure list transformations that the product grid and the header
    both apply to it. Prices are whole rupees (`nat`), so totals are exact. */
module Cart {

  /** A product as the store lists it; a new cart line copies these fields. */
  datatype Product = Product(id: string, name: string, price: nat, image: string)

  /** One cart line: the product snapshot taken when it was first added, plus
      a quantity. The quantity is an `int` because a stored cart may hold any
      number; `Valid` is the invariant the operations keep. */
  datatype Line = Line(id: string, name: string, price: nat, image: string, quantity: int)

  type Cart = seq<Line>

  /** The line appended for a product not yet in the cart. */
  function NewLine(p: Product): Line {
    Line(p.id, p.name, p.price, p.image, 1)
  }

  /** Some line carries this id. */
  predicate Has(c: Cart, id: string) {
    exists j :: 0 <= j < |c| && c[j].id == id
  }

  /** At most one line per product id. */
  predicate UniqueIds(c: Cart) {
    forall i, j :: 0 <= i < j < |c| ==> c[i].id != c[j].id
  }

  /** Every quantity is at least one. */
  predicate PositiveQuantities(c: Cart) {
    forall i :: 0 <= i < |c| ==> c[i].quantity >= 1
  }

  /** The cart invariant: one line per id, and no line with quantity below one. */
  predicate Valid(c: Cart) {
    UniqueIds(c) && PositiveQuantities(c)
  }

  /** `findIndex` on the id: the first index whose line has this id, or -1. */
  function FindIndex(c: Cart, id: string): (r: int)
    ensures -1 <= r < |c|
    ensures r == -1 <==> !Has(c, id)
    ensures 0 <= r ==> c[r].id == id && forall j :: 0 <= j < r ==> c[j].id != id
  {
    if |c| == 0 then -1
    else if c[0].id == id then 0
    else
      var k := FindIndex(c[1..], id);
      assert forall j :: 1 <= j < |c| ==> c[j] == c[1..][j - 1];
      if k < 0 then -1 else k + 1
  }

  /** The add-to-cart update: bump the first line with the product's id by
      one, or append a fresh line with quantity 1 at the end. */
  function Add(c: Cart, p: Product): (r: Cart)
    ensures Has(r, p.id)
    ensures |r| == (if Has(c, p.id) then |c| else |c| + 1)
  {
    var k := FindIndex(c, p.id);
    if k >= 0 then
      var r := c[k := c[k].(quantity := c[k].quantity + 1)];
      assert r[k].id == p.id;
      r
    else
      var r := c + [NewLine(p)];
      assert r[|c|].id == p.id;
      r
  }

  /** `filter(item => item._id !== id)`: drop every line with this id. */
  function Remove(c: Cart, id: string): (r: Cart)
    ensures |r| <= |c|
    ensures forall l :: l in r <==> l in c && l.id != id
    ensures !Has(c, id) ==> r == c
  {
    if |c| == 0 then []
    else (if c[0].id == id then [] else [c[0]]) + Remove(c[1..], id)
  }

  /** `map(item => item._id === id ? {...item, quantity: n} : item)`. */
  function WithQuantity(c: Cart, id: string, n: int): (r: Cart)
    ensures |r| == |c|
    ensures forall i :: 0 <= i < |c| ==>
              r[i] == (if c[i].id == id then c[i].(quantity := n) else c[i])
  {
    if |c| == 0 then []
    else [if c[0].id == id then c[0].(quantity := n) else c[0]] + WithQuantity(c[1..], id, n)
  }

  /** The quantity update: below one removes the line, otherwise the
      matching line takes the new quantity. */
  function SetQuantity(c: Cart, id: string, n: int): (r: Cart)
    ensures n < 1 ==> !Has(r, id)
    ensures n >= 1 ==> |r| == |c| && (Has(r, id) <==> Has(c, id))
    ensures forall l :: l in c && l.id != id ==> l in r
  {
    if n < 1 then Remove(c, id) else WithQuantity(c, id, n)
  }

  /** Left fold of a per-line weight, in the order `reduce` visits the lines. */
  function Sum(c: Cart, weight: Line -> int): int {
    if |c| == 0 then 0 else Sum(c[..|c| - 1], weight) + weight(c[|c| - 1])
  }

  function Quantity(l: Line): int { l.quantity }

  /** What one line costs: price times quantity. */
  function Subtotal(l: Line): int { l.price * l.quantity }

  /** Number of items: the sum of the quantities. */
  function Count(c: Cart): int { Sum(c, Quantity) }

  /** Cart total: the sum of price times quantity. */
  function Total(c: Cart): int { Sum(c, Subtotal) }

  /** `getCartItemCount`: the `reduce` loop over the lines. */
  method ItemCount(c: Cart) returns (n: int)
    ensures n == Count(c)
    ensures PositiveQuantities(c) ==> n >= |c|
  {
    n := 0;
    var i := 0;
    while i < |c|
      invariant 0 <= i <= |c|
      invariant n == Count(c[..i])
      invariant PositiveQuantities(c) ==> n >= i
    {
      assert c[..i + 1][..i] == c[..i];
      n := n + c[i].quantity;
      i := i + 1;
    }
    assert c[..|c|] == c;
  }

  /** `getCartTotal`: the `reduce` loop over price times quantity. */
  method CartTotal(c: Cart) returns (t: int)
    ensures t == Total(c)
    ensures c == [] ==> t == 0
    ensures PositiveQuantities(c) ==> t >= 0
  {
    t := 0;
    var i := 0;
    while i < |c|
      invariant 0 <= i <= |c|
      invariant t == Total(c[..i])
      invariant PositiveQuantities(c) ==> t >= 0
    {
      assert c[..i + 1][..i] == c[..i];
      t := t + c[i].price * c[i].quantity;
      i := i + 1;
    }
    assert c[..|c|] == c;
  }

  // ---------------------------------------------------------------------
  // Sums over concatenations and single-line updates

  lemma {:induction false} SumAppend(a: Cart, b: Cart, weight: Line -> int)
    ensures Sum(a + b, weight) == Sum(a, weight) + Sum(b, weight)
    decreases |b|
  {
    if |b| == 0 {
      assert a + b == a;
    } else {
      var b' := b[..|b| - 1];
      assert (a + b)[..|a + b| - 1] == a + b';
      SumAppend(a, b', weight);
    }
  }

  /** Replacing one line changes the sum by exactly that line's difference. */
  lemma SumUpdate(c: Cart, k: int, l: Line, weight: Line -> int)
    requires 0 <= k < |c|
    ensures Sum(c[k := l], weight) == Sum(c, weight) - weight(c[k]) + weight(l)
  {
    assert c == c[..k] + [c[k]] + c[k + 1..];
    assert c[k := l] == c[..k] + [l] + c[k + 1..];
    SumAppend(c[..k] + [c[k]], c[k + 1..], weight);
    SumAppend(c[..k], [c[k]], weight);
    SumAppend(c[..k] + [l], c[k + 1..], weight);
    SumAppend(c[..k], [l], weight);
  }

  // ---------------------------------------------------------------------
  // Add

  /** Adding a product already present bumps the first matching line by
      exactly one; length, the other lines and their order are unchanged. */
  lemma AddExisting(c: Cart, p: Product, k: int)
    requires 0 <= k < |c| && c[k].id == p.id
    requires forall j :: 0 <= j < k ==> c[j].id != p.id
    ensures |Add(c, p)| == |c|
    ensures Add(c, p)[k] == c[k].(quantity := c[k].quantity + 1)
    ensures forall j :: 0 <= j < |c| && j != k ==> Add(c, p)[j] == c[j]
  {
  }

  /** Adding an absent product appends one line with quantity 1 at the end. */
  lemma AddAbsent(c: Cart, p: Product)
    requires !Has(c, p.id)
    ensures Add(c, p) == c + [Line(p.id, p.name, p.price, p.image, 1)]
  {
  }

  /** Add keeps every existing line's id in its place, so every other
      product is in the cart afterwards exactly when it was before. */
  lemma AddKeepsOtherIds(c: Cart, p: Product)
    ensures forall j :: 0 <= j < |c| ==> Add(c, p)[j].id == c[j].id
    ensures forall id :: id != p.id ==> (Has(Add(c, p), id) <==> Has(c, id))
  {
    var r := Add(c, p);
    assert forall j :: 0 <= j < |c| ==> r[j].id == c[j].id;
    forall id | id != p.id
      ensures Has(r, id) <==> Has(c, id)
    {
      if Has(r, id) {
        var j :| 0 <= j < |r| && r[j].id == id;
        assert j < |c| && c[j].id == id;
      }
    }
  }

  /** Add keeps one line per id and quantities of at least one. */
  lemma AddPreservesValid(c: Cart, p: Product)
    requires Valid(c)
    ensures Valid(Add(c, p))
  {
  }

  /** Adding the same product twice to an empty cart gives one line of quantity 2. */
  lemma AddTwiceToEmpty(p: Product)
    ensures Add(Add([], p), p) == [Line(p.id, p.name, p.price, p.image, 2)]
  {
  }

  /** Appending one line adds exactly its weight. */
  lemma SumSnoc(c: Cart, l: Line, weight: Line -> int)
    ensures Sum(c + [l], weight) == Sum(c, weight) + weight(l)
  {
    assert (c + [l])[..|c|] == c;
  }

  /** The change an add makes to any per-line sum. */
  lemma AddSum(c: Cart, p: Product, weight: Line -> int)
    ensures var k := FindIndex(c, p.id);
      Sum(Add(c, p), weight) == Sum(c, weight)
        + (if k >= 0 then weight(c[k].(quantity := c[k].quantity + 1)) - weight(c[k])
           else weight(NewLine(p)))
  {
    var k := FindIndex(c, p.id);
    if k >= 0 {
      var bumped := c[k].(quantity := c[k].quantity + 1);
      assert Add(c, p) == c[k := bumped];
      SumUpdate(c, k, bumped, weight);
    } else {
      assert Add(c, p) == c + [NewLine(p)];
      SumSnoc(c, NewLine(p), weight);
    }
  }

  /** Every add raises the item count by one, and the total by the price of
      the line that was bumped (the stored snapshot price) or appended. */
  lemma AddCountAndTotal(c: Cart, p: Product)
    ensures Count(Add(c, p)) == Count(c) + 1
    ensures Total(Add(c, p)) == Total(c) + (if Has(c, p.id) then c[FindIndex(c, p.id)].price else p.price)
  {
    AddCount(c, p);
    var k := FindIndex(c, p.id);
    if k >= 0 {
      AddTotalBumped(c, p, k);
    } else {
      AddTotalAppended(c, p);
    }
  }

  /** The count part of `AddCountAndTotal`. */
  lemma AddCount(c: Cart, p: Product)
    ensures Count(Add(c, p)) == Count(c) + 1
  {
    AddSum(c, p, Quantity);
  }

  /** The total after bumping line k, the first with the product's id. */
  lemma AddTotalBumped(c: Cart, p: Product, k: int)
    requires 0 <= k && k == FindIndex(c, p.id)
    ensures Total(Add(c, p)) == Total(c) + c[k].price
  {
    AddSum(c, p, Subtotal);
    SubtotalBump(c[k]);
  }

  /** The total after appending a new line. */
  lemma AddTotalAppended(c: Cart, p: Product)
    requires FindIndex(c, p.id) < 0
    ensures Total(Add(c, p)) == Total(c) + p.price
  {
    AddSum(c, p, Subtotal);
  }

  /** One more of a line costs its price once more. */
  lemma SubtotalBump(l: Line)
    ensures Subtotal(l.(quantity := l.quantity + 1)) == Subtotal(l) + l.price
  {
    assert l.price * (l.quantity + 1) == l.price * l.quantity + l.price;
  }

  // ---------------------------------------------------------------------
  // Remove

  /** Removal distributes over concatenation: the surviving lines keep
      their relative order. */
  lemma {:induction false} RemoveAppend(a: Cart, b: Cart, id: string)
    ensures Remove(a + b, id) == Remove(a, id) + Remove(b, id)
    decreases |a|
  {
    if |a| == 0 {
      assert a + b == b;
    } else {
      var head := if a[0].id == id then [] else [a[0]];
      assert (a + b)[0] == a[0];
      assert (a + b)[1..] == a[1..] + b;
      RemoveAppend(a[1..], b, id);
      calc {
        Remove(a + b, id);
        head + Remove(a[1..] + b, id);
        head + (Remove(a[1..], id) + Remove(b, id));
        (head + Remove(a[1..], id)) + Remove(b, id);
      }
    }
  }

  /** Dropping the first line keeps one line per id. */
  lemma UniqueTail(c: Cart)
    requires |c| > 0 && UniqueIds(c)
    ensures UniqueIds(c[1..])
  {
    forall i, j | 0 <= i < j < |c[1..]|
      ensures c[1..][i].id != c[1..][j].id
    {
      assert c[1..][i] == c[i + 1] && c[1..][j] == c[j + 1];
    }
  }

  /** In a cart with one line per id, removing the id of line k cuts out
      exactly that line. */
  lemma {:induction false} RemoveSplice(c: Cart, k: int)
    requires UniqueIds(c) && 0 <= k < |c|
    ensures Remove(c, c[k].id) == c[..k] + c[k + 1..]
    decreases |c|
  {
    var id := c[k].id;
    var tail := c[1..];
    if k == 0 {
      RemoveFirst(c);
    } else {
      assert tail[k - 1] == c[k];
      UniqueTail(c);
      RemoveSplice(tail, k - 1);
      assert c[0].id != id;
      assert Remove(c, id) == [c[0]] + Remove(tail, id);
      SpliceAfterHead(c, k);
    }
  }

  /** Cutting out a line after the first is cutting it out of the tail. */
  lemma SpliceAfterHead(c: Cart, k: int)
    requires 0 < k < |c|
    ensures c[..k] + c[k + 1..] == [c[0]] + (c[1..][..k - 1] + c[1..][k..])
  {
    assert c[..k] == [c[0]] + c[1..][..k - 1];
    assert c[k + 1..] == c[1..][k..];
  }

  /** In a cart with one line per id, removing the first line's id leaves
      exactly the rest. */
  lemma RemoveFirst(c: Cart)
    requires UniqueIds(c) && 0 < |c|
    ensures Remove(c, c[0].id) == c[1..]
  {
    var tail := c[1..];
    assert !Has(tail, c[0].id) by {
      forall j | 0 <= j < |tail|
        ensures tail[j].id != c[0].id
      {
        assert tail[j] == c[j + 1];
      }
    }
  }

  /** Removal keeps the cart invariant. */
  lemma {:induction false} RemovePreservesValid(c: Cart, id: string)
    requires Valid(c)
    ensures Valid(Remove(c, id))
    decreases |c|
  {
    if |c| > 0 {
      var rest := c[1..];
      UniqueTail(c);
      RemovePreservesValid(rest, id);
      var tail := Remove(rest, id);
      if c[0].id != id {
        forall j | 0 <= j < |tail|
          ensures tail[j].id != c[0].id
        {
          assert tail[j] in rest;
        }
        assert Remove(c, id) == [c[0]] + tail;
      }
    }
  }

  /** Cutting line k out of a cart takes exactly its weight out of the sum. */
  lemma {:induction false} SumCut(c: Cart, k: int, weight: Line -> int)
    requires 0 <= k < |c|
    ensures Sum(c[..k] + c[k + 1..], weight) == Sum(c, weight) - weight(c[k])
  {
    var front, back := c[..k], c[k + 1..];
    var mid := front + [c[k]];
    assert c == mid + back;
    SumAppend(mid, back, weight);
    assert Sum(c, weight) == Sum(mid, weight) + Sum(back, weight);
    SumSnoc(front, c[k], weight);
    assert Sum(mid, weight) == Sum(front, weight) + weight(c[k]);
    SumAppend(front, back, weight);
  }

  /** In a valid cart, removing line k takes exactly that line's weight out
      of any per-line sum. */
  lemma RemoveSum(c: Cart, k: int, weight: Line -> int)
    requires UniqueIds(c) && 0 <= k < |c|
    ensures Sum(Remove(c, c[k].id), weight) == Sum(c, weight) - weight(c[k])
  {
    RemoveSplice(c, k);
    SumCut(c, k, weight);
  }

  /** In a valid cart, removing line k lowers the count and the total by
      exactly that line's contribution. */
  lemma RemoveCountAndTotal(c: Cart, k: int)
    requires UniqueIds(c) && 0 <= k < |c|
    ensures Count(Remove(c, c[k].id)) == Count(c) - c[k].quantity
    ensures Total(Remove(c, c[k].id)) == Total(c) - c[k].price * c[k].quantity
  {
    RemoveSum(c, k, Quantity);
    RemoveSum(c, k, Subtotal);
  }

  // ---------------------------------------------------------------------
  // Set quantity

  /** A quantity below one is exactly a removal; otherwise, in a cart with
      one line per id, only line k changes and it takes the new quantity. */
  lemma SetQuantityEffect(c: Cart, k: int, n: int)
    requires UniqueIds(c) && 0 <= k < |c|
    ensures n < 1 ==> SetQuantity(c, c[k].id, n) == c[..k] + c[k + 1..]
    ensures n >= 1 ==> SetQuantity(c, c[k].id, n) == c[k := c[k].(quantity := n)]
  {
    if n < 1 {
      RemoveSplice(c, k);
    }
  }

  /** Setting a quantity keeps the cart invariant, whichever branch runs. */
  lemma SetQuantityPreservesValid(c: Cart, id: string, n: int)
    requires Valid(c)
    ensures Valid(SetQuantity(c, id, n))
  {
    if n < 1 {
      RemovePreservesValid(c, id);
    }
  }

  /** The item count after setting line k to n (n at least one) moves by the
      difference between the new and the old quantity. */
  lemma SetQuantityCount(c: Cart, k: int, n: int)
    requires UniqueIds(c) && 0 <= k < |c| && n >= 1
    ensures Count(SetQuantity(c, c[k].id, n)) == Count(c) - c[k].quantity + n
    ensures Total(SetQuantity(c, c[k].id, n)) == Total(c) - c[k].price * c[k].quantity + c[k].price * n
  {
    SetQuantityEffect(c, k, n);
    SumUpdate(c, k, c[k].(quantity := n), Quantity);
    SumUpdate(c, k, c[k].(quantity := n), Subtotal);
  }
}

=== FILE: cart_storage.dfy ===
/** The browser storage slot named "cart" that the product grid and the
    header share. Serialisation is not modelled: a slot either holds a cart
    or holds text that does not parse back into one. */
module CartStorage {
  import opened Cart

  /** Nothing stored (or an empty string, which the code treats the same),
      text that does not parse, or a serialised cart. */
  datatype Slot = Empty | Garbled | Holds(cart: Cart)

  /** Reading the slot: the stored cart, or the fallback when the slot is
      empty or does not parse (the parse error is only logged). */
  function ReadOr(slot: Slot, fallback: Cart): (c: Cart)
    ensures slot.Holds? ==> c == slot.cart
    ensures !slot.Holds? ==> c == fallback
  {
    if slot.Holds? then slot.cart else fallback
  }
}

=== FILE: checkout.dfy ===
/** The header's cart checkout as a state machine. The gateway call, the
    payment widget's two callbacks and the settling of the order saves are
    events; the requests the client sends are recorded in `sent`.

    As written, the `finally` of the checkout handler clears the "processing"
    flag as soon as the widget has been opened, so the checkout button is
    enabled again after the payment while the saves are pending, and a press
    there requests a second gateway order (`StepAsWritten`,
    `AsWrittenReopensDuringSaves`); a press while the widget itself is open
    does the same if the widget's overlay lets it through
    (`AsWrittenReopensCheckout`).
    The widget's dismiss callback clearing the same flag shows it was meant
    to stay set until the widget closes; `Step` keeps it set until the
    attempt ends, and `PressKeepsConsistent` shows a press can then only
    start an attempt when none is in flight. */
module Checkout {
  import opened Wrappers
  import opened Cart
  import opened CartStorage
  import HeaderCart
  import Access

  const Currency: string := "INR"

  /** The status every saved order carries. */
  const PaidStatus: string := "paid"

  /** The receipt label of a gateway order: "cart_<timestamp>" for a cart,
      "receipt_<product id>" for a single product. */
  datatype Receipt = CartReceipt(timestamp: nat) | ProductReceipt(productId: string)

  /** The two requests the client sends to the backend. */
  datatype Request =
    | CreateOrder(amount: int, currency: string, receipt: Receipt)
    | SaveOrder(productId: string, userId: string, paymentId: string, amount: int, status: string)

  /** The backend's answer to a gateway order request. */
  datatype GatewayReply = OrderCreated(orderId: string) | GatewayError(message: string)

  /** Where one checkout attempt stands; the snapshot is the cart the
      attempt was started with, which the widget's callback closes over. */
  datatype Phase =
    | Idle
    | AwaitingGateway(buyer: Access.User, snapshot: Cart)
    | WidgetOpen(buyer: Access.User, snapshot: Cart, orderId: string)
    | AwaitingSaves(snapshot: Cart)

  /** The last message shown to the shopper. */
  datatype Notice =
    | Quiet
    | LoginToCheckout                  // warning: not signed in
    | CartIsEmpty                      // info: nothing to pay for
    | CheckoutFailed(message: string)  // the gateway order could not be created
    | OrderPlaced                      // payment taken and every line saved
    | SaveFailed                       // payment taken, some save failed

  /** The header's cart, the storage slot, the "processing" flag, the
      attempt in flight, every request sent so far, and the last notice. */
  datatype Session = Session(view: HeaderCart.View, slot: Slot, busy: bool,
                             phase: Phase, sent: seq<Request>, notice: Notice)

  /** What can happen to a checkout attempt. */
  datatype Event =
    | CheckoutClicked(user: Option<Access.User>, now: nat)
    | GatewayReplied(reply: GatewayReply)
    | PaymentCompleted(paymentId: string)
    | WidgetDismissed
    | SavesSettled(results: seq<bool>)   // one outcome per save, in line order
    | DrawerQuantity(editedId: string, quantity: int)  // the drawer's "-" or "+" on a line
    | DrawerRemove(removedId: string)                   // the drawer's delete on a line
    | CartBroadcast(written: Slot)       // another component wrote the slot and broadcast

  /** The cart edits: nothing disables them while an attempt is in flight. */
  predicate IsEdit(e: Event) {
    e.DrawerQuantity? || e.DrawerRemove? || e.CartBroadcast?
  }

  /** The save requests of the success callback: one per line, each for
      price times quantity with status "paid". */
  function SaveRequests(lines: Cart, userId: string, paymentId: string): (r: seq<Request>)
    ensures |r| == |lines|
    ensures forall i :: 0 <= i < |lines| ==>
              r[i] == SaveOrder(lines[i].id, userId, paymentId, lines[i].price * lines[i].quantity, "paid")
  {
    if |lines| == 0 then []
    else
      var last := lines[|lines| - 1];
      SaveRequests(lines[..|lines| - 1], userId, paymentId)
        + [SaveOrder(last.id, userId, paymentId, last.price * last.quantity, PaidStatus)]
  }

  /** The amount a list of requests saves, summed over its save requests. */
  function SavedAmount(reqs: seq<Request>): int {
    if |reqs| == 0 then 0
    else SavedAmount(reqs[..|reqs| - 1])
           + (if reqs[|reqs| - 1].SaveOrder? then reqs[|reqs| - 1].amount else 0)
  }

  /** `Promise.all` resolves only when every save succeeded. */
  predicate AllSucceeded(results: seq<bool>) {
    forall i :: 0 <= i < |results| ==> results[i]
  }

  /** The checkout button: disabled while processing or when the cart is empty. */
  predicate CheckoutEnabled(s: Session) {
    !s.busy && |s.view.cart| > 0
  }

  /** One event, with the "processing" flag kept until the attempt ends.
      The checkout events leave the cart alone except for emptying it after
      a fully saved payment; the cart edits touch nothing of the attempt. */
  function Step(s: Session, e: Event): (t: Session)
    ensures |s.sent| <= |t.sent| && t.sent[..|s.sent|] == s.sent
    ensures !IsEdit(e) ==>
              t.view == s.view || (e.SavesSettled? && AllSucceeded(e.results) && t.view.cart == [])
    ensures IsEdit(e) ==>
              t.sent == s.sent && t.phase == s.phase && t.busy == s.busy && t.notice == s.notice
    ensures !e.CartBroadcast? ==> t.slot == s.slot || t.slot == Holds(t.view.cart)
    ensures e.DrawerQuantity? ==> t.view == HeaderCart.UpdateQuantity(s.view, e.editedId, e.quantity).view
    ensures e.DrawerRemove? ==> t.view == HeaderCart.RemoveFromCart(s.view, e.removedId).view
    ensures e.CartBroadcast? ==> t.view == HeaderCart.Reload(s.view, e.written) && t.slot == e.written
  {
    match e
    case CheckoutClicked(user, now) =>
      if user.None? then s.(notice := LoginToCheckout)
      else if |s.view.cart| == 0 then s.(notice := CartIsEmpty)
      else
        s.(busy := true, phase := AwaitingGateway(user.value, s.view.cart),
           sent := s.sent + [CreateOrder(Total(s.view.cart), Currency, CartReceipt(now))])
    case GatewayReplied(reply) =>
      if !s.phase.AwaitingGateway? then s
      else if reply.GatewayError? then
        s.(busy := false, phase := Idle, notice := CheckoutFailed(reply.message))
      else
        s.(phase := WidgetOpen(s.phase.buyer, s.phase.snapshot, reply.orderId))
    case PaymentCompleted(paymentId) =>
      if !s.phase.WidgetOpen? then s
      else
        s.(phase := AwaitingSaves(s.phase.snapshot),
           sent := s.sent + SaveRequests(s.phase.snapshot, s.phase.buyer.id, paymentId))
    case WidgetDismissed =>
      if !s.phase.WidgetOpen? then s
      else s.(busy := false, phase := Idle)
    case SavesSettled(results) =>
      if !s.phase.AwaitingSaves? || |results| != |s.phase.snapshot| then s
      else if AllSucceeded(results) then
        s.(view := HeaderCart.View([], false), slot := Holds([]),
           busy := false, phase := Idle, notice := OrderPlaced)
      else
        s.(busy := false, phase := Idle, notice := SaveFailed)
    case DrawerQuantity(id, n) =>
      var r := HeaderCart.UpdateQuantity(s.view, id, n);
      s.(view := r.view, slot := r.slot)
    case DrawerRemove(id) =>
      var r := HeaderCart.RemoveFromCart(s.view, id);
      s.(view := r.view, slot := r.slot)
    case CartBroadcast(written) =>
      s.(view := HeaderCart.Reload(s.view, written), slot := written)
  }

  /** One event as written: the handler's `finally` clears the flag once
      the gateway has answered, also when the widget has just opened. */
  function StepAsWritten(s: Session, e: Event): (t: Session)
    ensures e.GatewayReplied? && s.phase.AwaitingGateway? ==> !t.busy
    ensures t.sent == Step(s, e).sent && t.view == Step(s, e).view && t.phase == Step(s, e).phase
  {
    var t := Step(s, e);
    if e.GatewayReplied? && s.phase.AwaitingGateway? then t.(busy := false) else t
  }

  /** A press on a disabled button does nothing; every other event is
      delivered to the handler. */
  function Press(s: Session, e: Event): (t: Session)
    ensures e.CheckoutClicked? && (s.busy || |s.view.cart| == 0) ==> t == s
    ensures e.CheckoutClicked? && !s.busy && |s.view.cart| > 0 ==> t == Step(s, e)
    ensures !e.CheckoutClicked? ==> t == Step(s, e)
  {
    if e.CheckoutClicked? && !CheckoutEnabled(s) then s else Step(s, e)
  }

  /** A press as written: still ignored while the flag is set, which after
      the gateway's answer it no longer is. */
  function PressAsWritten(s: Session, e: Event): (t: Session)
    ensures e.CheckoutClicked? && s.busy ==> t == s
    ensures e.CheckoutClicked? && !s.busy && |s.view.cart| > 0 ==> t == StepAsWritten(s, e)
    ensures e.GatewayReplied? && s.phase.AwaitingGateway? ==> !t.busy
    ensures |s.sent| <= |t.sent| && t.sent[..|s.sent|] == s.sent
  {
    if e.CheckoutClicked? && !CheckoutEnabled(s) then s else StepAsWritten(s, e)
  }

  /** A sequence of events, in order. */
  function Run(s: Session, events: seq<Event>): Session
    decreases |events|
  {
    if |events| == 0 then s else Run(Press(s, events[0]), events[1..])
  }

  /** The flag is set exactly while an attempt is in flight, and an
      attempt's snapshot is never empty. */
  predicate Consistent(s: Session) {
    && (s.busy <==> !s.phase.Idle?)
    && (s.phase.AwaitingGateway? ==> |s.phase.snapshot| > 0)
    && (s.phase.WidgetOpen? ==> |s.phase.snapshot| > 0)
    && (s.phase.AwaitingSaves? ==> |s.phase.snapshot| > 0)
  }

  // ---------------------------------------------------------------------
  // Guards and amounts

  /** The guards come in order: no user is reported before an empty cart,
      and neither sends a request or touches the cart. */
  lemma GuardsSendNothing(s: Session, user: Option<Access.User>, now: nat)
    requires user.None? || |s.view.cart| == 0
    ensures Step(s, CheckoutClicked(user, now)).sent == s.sent
    ensures Step(s, CheckoutClicked(user, now)).view == s.view
    ensures Step(s, CheckoutClicked(user, now)).notice == (if user.None? then LoginToCheckout else CartIsEmpty)
  {
  }

  /** Otherwise exactly one request is sent: a gateway order for the cart
      total in rupees; the widget will save the same cart. */
  lemma ClickRequestsTotal(s: Session, u: Access.User, now: nat)
    requires |s.view.cart| > 0
    ensures var t := Step(s, CheckoutClicked(Some(u), now));
            && t.sent == s.sent + [CreateOrder(Total(s.view.cart), "INR", CartReceipt(now))]
            && t.phase == AwaitingGateway(u, s.view.cart)
            && t.view == s.view
  {
  }

  /** The saves request, together, exactly the amount of the gateway order. */
  lemma {:induction false} SavedAmountIsTotal(lines: Cart, userId: string, paymentId: string)
    ensures SavedAmount(SaveRequests(lines, userId, paymentId)) == Total(lines)
    decreases |lines|
  {
    if |lines| > 0 {
      var r := SaveRequests(lines, userId, paymentId);
      assert r[..|r| - 1] == SaveRequests(lines[..|lines| - 1], userId, paymentId);
      SavedAmountIsTotal(lines[..|lines| - 1], userId, paymentId);
    }
  }

  // ---------------------------------------------------------------------
  // The widget's callbacks and the saves

  /** The success callback sends one save per snapshot line, for the
      snapshot's user and the payment id, and leaves the cart alone. */
  lemma PaymentSavesEveryLine(s: Session, paymentId: string)
    requires s.phase.WidgetOpen?
    ensures var t := Step(s, PaymentCompleted(paymentId));
            var snap := s.phase.snapshot;
            && |t.sent| == |s.sent| + |snap|
            && (forall i :: 0 <= i < |snap| ==>
                  t.sent[|s.sent| + i] == SaveOrder(snap[i].id, s.phase.buyer.id, paymentId,
                                                    snap[i].price * snap[i].quantity, "paid"))
            && t.view == s.view
  {
  }

  /** A gateway failure ends the attempt: nothing more is sent, the cart and
      the slot are kept, the flag is cleared and the failure is shown. */
  lemma GatewayFailureEndsAttempt(s: Session, message: string)
    requires s.phase.AwaitingGateway?
    ensures var t := Step(s, GatewayReplied(GatewayError(message)));
            && t.sent == s.sent && t.phase.Idle? && !t.busy
            && t.view == s.view && t.slot == s.slot && t.notice == CheckoutFailed(message)
  {
  }

  /** Dismissing the widget sends nothing and leaves the cart whole. */
  lemma DismissKeepsCart(s: Session)
    requires Consistent(s) && s.phase.WidgetOpen?
    ensures var t := Step(s, WidgetDismissed);
            t.view == s.view && t.slot == s.slot && t.sent == s.sent && t.phase.Idle? && !t.busy
  {
  }

  /** After the saves settle the cart is emptied exactly when every save
      succeeded; after any failure the cart and the slot are untouched. */
  lemma SettleClearsOnlyOnFullSuccess(s: Session, results: seq<bool>)
    requires s.phase.AwaitingSaves? && |results| == |s.phase.snapshot|
    ensures var t := Step(s, SavesSettled(results));
            && (AllSucceeded(results) ==> t.view.cart == [] && t.slot == Holds([]) && t.notice == OrderPlaced)
            && (!AllSucceeded(results) ==> t.view == s.view && t.slot == s.slot && t.notice == SaveFailed)
            && t.sent == s.sent
  {
  }

  // ---------------------------------------------------------------------
  // One attempt at a time

  /** Every delivered event keeps the flag in step with the attempt. */
  lemma PressKeepsConsistent(s: Session, e: Event)
    requires Consistent(s)
    ensures Consistent(Press(s, e))
    ensures e.CheckoutClicked? && !s.phase.Idle? ==> Press(s, e) == s
  {
  }

  /** Over any sequence of events, cart edits included, no press starts a
      second attempt while one is in flight and the request log only grows;
      without cart edits the cart changes only by being emptied after a
      fully saved payment. */
  lemma {:induction false} RunKeepsConsistent(s: Session, events: seq<Event>)
    requires Consistent(s)
    ensures Consistent(Run(s, events))
    ensures |s.sent| <= |Run(s, events).sent| && Run(s, events).sent[..|s.sent|] == s.sent
    ensures (forall i :: 0 <= i < |events| ==> !IsEdit(events[i])) ==>
              Run(s, events).view == s.view || Run(s, events).view.cart == []
    decreases |events|
  {
    if |events| > 0 {
      PressKeepsConsistent(s, events[0]);
      var t := Press(s, events[0]);
      RunKeepsConsistent(t, events[1..]);
      var u := Run(t, events[1..]);
      assert u.sent[..|s.sent|] == u.sent[..|t.sent|][..|s.sent|];
      if forall i :: 0 <= i < |events| ==> !IsEdit(events[i]) {
        assert !IsEdit(events[0]);
        assert forall i :: 0 <= i < |events[1..]| ==> !IsEdit(events[1..][i]) by {
          forall i | 0 <= i < |events[1..]|
            ensures !IsEdit(events[1..][i])
          {
            assert events[1..][i] == events[i + 1];
          }
        }
      }
    }
  }

  /** A cart edit while an attempt is in flight leaves the attempt, and so
      the snapshot its saves will cover, as it was. */
  lemma EditKeepsAttempt(s: Session, e: Event)
    requires IsEdit(e)
    ensures Press(s, e).phase == s.phase && Press(s, e).busy == s.busy && Press(s, e).sent == s.sent
  {
  }

  /** A line the grid adds while the gateway order is pending is not paid
      for, yet a fully saved payment empties the whole cart, that line
      included: the saves cover the clicked cart, and the cart is cleared
      wholesale. */
  lemma LateLineClearedUnsaved(a: Line, b: Line, u: Access.User, paymentId: string)
    requires a.id != b.id
    ensures
      var s0 := Session(HeaderCart.View([a], true), Holds([a]), false, Idle, [], Quiet);
      var events := [CheckoutClicked(Some(u), 1), CartBroadcast(Holds([a, b])),
                     GatewayReplied(OrderCreated("order_1")), PaymentCompleted(paymentId), SavesSettled([true])];
      var t := Run(s0, events);
      && t.view.cart == [] && t.slot == Holds([]) && t.notice == OrderPlaced
      && |t.sent| == 2 && t.sent[1] == SaveOrder(a.id, u.id, paymentId, a.price * a.quantity, "paid")
      && (forall i :: 0 <= i < |t.sent| ==> !(t.sent[i].SaveOrder? && t.sent[i].productId == b.id))
  {
    LateLineRun(a, b, u, paymentId);
  }

  /** The whole run of that scenario, state by state. */
  lemma {:induction false} LateLineRun(a: Line, b: Line, u: Access.User, paymentId: string)
    ensures
      var s0 := Session(HeaderCart.View([a], true), Holds([a]), false, Idle, [], Quiet);
      var events := [CheckoutClicked(Some(u), 1), CartBroadcast(Holds([a, b])),
                     GatewayReplied(OrderCreated("order_1")), PaymentCompleted(paymentId), SavesSettled([true])];
      Run(s0, events)
        == Session(HeaderCart.View([], false), Holds([]), false, Idle,
                   [CreateOrder(Total([a]), "INR", CartReceipt(1)),
                    SaveOrder(a.id, u.id, paymentId, a.price * a.quantity, "paid")], OrderPlaced)
  {
    var s0 := Session(HeaderCart.View([a], true), Holds([a]), false, Idle, [], Quiet);
    RunFive(s0, CheckoutClicked(Some(u), 1), CartBroadcast(Holds([a, b])),
            GatewayReplied(OrderCreated("order_1")), PaymentCompleted(paymentId), SavesSettled([true]));
    LateLinePrefix(a, b, u, paymentId);
    var s4 := Session(HeaderCart.View([a, b], true), Holds([a, b]), true, AwaitingSaves([a]),
                      [CreateOrder(Total([a]), "INR", CartReceipt(1)),
                       SaveOrder(a.id, u.id, paymentId, a.price * a.quantity, "paid")], Quiet);
    SettleAllSaved(s4, [true]);
  }

  /** Saves that all succeeded end the attempt and empty the cart and the slot. */
  lemma SettleAllSaved(s: Session, results: seq<bool>)
    requires s.phase.AwaitingSaves? && |results| == |s.phase.snapshot| && AllSucceeded(results)
    ensures Press(s, SavesSettled(results))
              == s.(view := HeaderCart.View([], false), slot := Holds([]),
                    busy := false, phase := Idle, notice := OrderPlaced)
  {
  }

  /** A run is its first press followed by the run of the rest. */
  lemma RunCons(s: Session, e: Event, rest: seq<Event>)
    ensures Run(s, [e] + rest) == Run(Press(s, e), rest)
  {
    assert ([e] + rest)[1..] == rest;
  }

  /** Five events in a row are five presses, one after the other. */
  lemma {:induction false} RunFive(s: Session, e0: Event, e1: Event, e2: Event, e3: Event, e4: Event)
    ensures Run(s, [e0, e1, e2, e3, e4]) == Press(Press(Press(Press(Press(s, e0), e1), e2), e3), e4)
  {
    var p1 := Press(s, e0);
    var p2 := Press(p1, e1);
    var p3 := Press(p2, e2);
    var p4 := Press(p3, e3);
    RunCons(s, e0, [e1, e2, e3, e4]);
    RunCons(p1, e1, [e2, e3, e4]);
    RunCons(p2, e2, [e3, e4]);
    RunCons(p3, e3, [e4]);
    RunCons(p4, e4, []);
  }

  /** The first four events of that run: the broadcast brings the late line
      into the cart, and the payment saves only the clicked line. */
  lemma LateLinePrefix(a: Line, b: Line, u: Access.User, paymentId: string)
    ensures
      var s0 := Session(HeaderCart.View([a], true), Holds([a]), false, Idle, [], Quiet);
      var s1 := Press(s0, CheckoutClicked(Some(u), 1));
      var s2 := Press(s1, CartBroadcast(Holds([a, b])));
      var s3 := Press(s2, GatewayReplied(OrderCreated("order_1")));
      Press(s3, PaymentCompleted(paymentId))
        == Session(HeaderCart.View([a, b], true), Holds([a, b]), true, AwaitingSaves([a]),
                   [CreateOrder(Total([a]), "INR", CartReceipt(1)),
                    SaveOrder(a.id, u.id, paymentId, a.price * a.quantity, "paid")], Quiet)
  {
    var s0 := Session(HeaderCart.View([a], true), Holds([a]), false, Idle, [], Quiet);
    var created := [CreateOrder(Total([a]), "INR", CartReceipt(1))];
    var s1 := Session(HeaderCart.View([a], true), Holds([a]), true, AwaitingGateway(u, [a]), created, Quiet);
    var s2 := s1.(view := HeaderCart.View([a, b], true), slot := Holds([a, b]));
    var s3 := s2.(phase := WidgetOpen(u, [a], "order_1"));
    ClickStartsAttempt(s0, u, 1);
    BroadcastReplacesCart(s1, [a, b]);
    assert Press(s2, GatewayReplied(OrderCreated("order_1"))) == s3;
    assert SaveRequests([a], u.id, paymentId) == [SaveOrder(a.id, u.id, paymentId, a.price * a.quantity, "paid")];
  }

  /** A click with a signed-in buyer and a non-empty cart starts an attempt. */
  lemma ClickStartsAttempt(s: Session, u: Access.User, now: nat)
    requires !s.busy && s.view.cart != []
    ensures Press(s, CheckoutClicked(Some(u), now))
              == s.(busy := true, phase := AwaitingGateway(u, s.view.cart),
                    sent := s.sent + [CreateOrder(Total(s.view.cart), "INR", CartReceipt(now))])
  {
  }

  /** A broadcast of a readable cart replaces the header's copy and the slot. */
  lemma BroadcastReplacesCart(s: Session, c: Cart)
    ensures Press(s, CartBroadcast(Holds(c))) == s.(view := s.view.(cart := c), slot := Holds(c))
  {
  }

  /** The four events of a paid two-line checkout, the last one settling
      the saves with the given outcomes. */
  function PaidTwoLines(u: Access.User, now: nat, orderId: string, paymentId: string,
                        results: seq<bool>): seq<Event> {
    [CheckoutClicked(Some(u), now), GatewayReplied(OrderCreated(orderId)),
     PaymentCompleted(paymentId), SavesSettled(results)]
  }

  /** Running those events on a two-line cart: the state after the saves
      were requested, and the final state. */
  lemma {:induction false} PaidTwoLinesRun(a: Line, b: Line, u: Access.User, now: nat, orderId: string,
                                           paymentId: string, results: seq<bool>)
    ensures
      var s0 := Session(HeaderCart.View([a, b], true), Holds([a, b]), false, Idle, [], Quiet);
      var s3 := Session(HeaderCart.View([a, b], true), Holds([a, b]), true, AwaitingSaves([a, b]),
                        [CreateOrder(a.price * a.quantity + b.price * b.quantity, "INR", CartReceipt(now)),
                         SaveOrder(a.id, u.id, paymentId, a.price * a.quantity, "paid"),
                         SaveOrder(b.id, u.id, paymentId, b.price * b.quantity, "paid")], Quiet);
      Run(s0, PaidTwoLines(u, now, orderId, paymentId, results)) == Step(s3, SavesSettled(results))
  {
    var events := PaidTwoLines(u, now, orderId, paymentId, results);
    var s0 := Session(HeaderCart.View([a, b], true), Holds([a, b]), false, Idle, [], Quiet);
    var s1 := Press(s0, events[0]);
    var s2 := Press(s1, events[1]);
    var s3 := Press(s2, events[2]);
    PaidTwoLinesPrefix(a, b, u, now, orderId, paymentId);
    assert events[1..][1..][1..] == [SavesSettled(results)];
    calc {
      Run(s0, events);
      Run(s1, events[1..]);
      Run(s2, events[1..][1..]);
      Run(s3, events[1..][1..][1..]);
      Run(Press(s3, SavesSettled(results)), []);
    }
  }

  /** The first three events of that run: the gateway order for the total,
      then one save per line. */
  lemma PaidTwoLinesPrefix(a: Line, b: Line, u: Access.User, now: nat, orderId: string, paymentId: string)
    ensures
      var s0 := Session(HeaderCart.View([a, b], true), Holds([a, b]), false, Idle, [], Quiet);
      var s1 := Press(s0, CheckoutClicked(Some(u), now));
      var s2 := Press(s1, GatewayReplied(OrderCreated(orderId)));
      Press(s2, PaymentCompleted(paymentId))
        == Session(HeaderCart.View([a, b], true), Holds([a, b]), true, AwaitingSaves([a, b]),
                   [CreateOrder(a.price * a.quantity + b.price * b.quantity, "INR", CartReceipt(now)),
                    SaveOrder(a.id, u.id, paymentId, a.price * a.quantity, "paid"),
                    SaveOrder(b.id, u.id, paymentId, b.price * b.quantity, "paid")], Quiet)
  {
    var s0 := Session(HeaderCart.View([a, b], true), Holds([a, b]), false, Idle, [], Quiet);
    ClickStartsAttempt(s0, u, now);
    var s1 := s0.(busy := true, phase := AwaitingGateway(u, [a, b]),
                  sent := [CreateOrder(Total([a, b]), "INR", CartReceipt(now))]);
    assert s0.sent + [CreateOrder(Total([a, b]), "INR", CartReceipt(now))] == s1.sent;
    var s2 := s1.(phase := WidgetOpen(u, [a, b], orderId));
    assert Press(s1, GatewayReplied(OrderCreated(orderId))) == s2;
    TotalOfTwo(a, b);
    assert SaveRequests([a, b], u.id, paymentId)
        == [SaveOrder(a.id, u.id, paymentId, a.price * a.quantity, "paid"),
            SaveOrder(b.id, u.id, paymentId, b.price * b.quantity, "paid")];
  }

  /** The total of a two-line cart. */
  lemma TotalOfTwo(a: Line, b: Line)
    ensures Total([a, b]) == a.price * a.quantity + b.price * b.quantity
  {
    assert [a, b][..1] == [a] && [a][..0] == [];
    SumSnoc([], a, Subtotal);
    SumSnoc([a], b, Subtotal);
    assert [] + [a] == [a] && [a] + [b] == [a, b];
  }

  /** A two-line cart, paid, with both saves succeeding: the gateway order
      is for the total, each line is saved once, and the cart ends empty. */
  lemma TwoLinesAllSaved(a: Line, b: Line, u: Access.User, now: nat, orderId: string, paymentId: string)
    ensures
      var s0 := Session(HeaderCart.View([a, b], true), Holds([a, b]), false, Idle, [], Quiet);
      var t := Run(s0, PaidTwoLines(u, now, orderId, paymentId, [true, true]));
      && t.view.cart == [] && t.slot == Holds([]) && t.notice == OrderPlaced
      && t.sent == [CreateOrder(a.price * a.quantity + b.price * b.quantity, "INR", CartReceipt(now)),
                    SaveOrder(a.id, u.id, paymentId, a.price * a.quantity, "paid"),
                    SaveOrder(b.id, u.id, paymentId, b.price * b.quantity, "paid")]
  {
    PaidTwoLinesRun(a, b, u, now, orderId, paymentId, [true, true]);
  }

  /** The same cart with the second save failing: the payment is reported
      but the cart keeps both lines, and each line was submitted once. */
  lemma TwoLinesOneSaveFails(a: Line, b: Line, u: Access.User, now: nat, orderId: string, paymentId: string)
    ensures
      var s0 := Session(HeaderCart.View([a, b], true), Holds([a, b]), false, Idle, [], Quiet);
      var t := Run(s0, PaidTwoLines(u, now, orderId, paymentId, [true, false]));
      && t.view.cart == [a, b] && t.slot == Holds([a, b]) && t.notice == SaveFailed
      && t.sent == [CreateOrder(a.price * a.quantity + b.price * b.quantity, "INR", CartReceipt(now)),
                    SaveOrder(a.id, u.id, paymentId, a.price * a.quantity, "paid"),
                    SaveOrder(b.id, u.id, paymentId, b.price * b.quantity, "paid")]
  {
    PaidTwoLinesRun(a, b, u, now, orderId, paymentId, [true, false]);
    assert ![true, false][1];
  }

  /** As written, once the gateway has answered the button is enabled while
      the widget is open, and a second press requests a second gateway
      order for the same cart. */
  lemma AsWrittenReopensCheckout(a: Line, u: Access.User)
    ensures
      var s0 := Session(HeaderCart.View([a], true), Holds([a]), false, Idle, [], Quiet);
      var s1 := PressAsWritten(s0, CheckoutClicked(Some(u), 1));
      var s2 := PressAsWritten(s1, GatewayReplied(OrderCreated("order_1")));
      var s3 := PressAsWritten(s2, CheckoutClicked(Some(u), 2));
      && s2.phase.WidgetOpen? && CheckoutEnabled(s2)
      && |s3.sent| == 2 && s3.sent[0].CreateOrder? && s3.sent[1].CreateOrder?
  {
  }

  /** As written, the button is also enabled after the payment, while the
      saves are still pending, and a press there requests another gateway
      order for the cart that is being saved. */
  lemma AsWrittenReopensDuringSaves(a: Line, u: Access.User)
    ensures
      var s0 := Session(HeaderCart.View([a], true), Holds([a]), false, Idle, [], Quiet);
      var s1 := PressAsWritten(s0, CheckoutClicked(Some(u), 1));
      var s2 := PressAsWritten(s1, GatewayReplied(OrderCreated("order_1")));
      var s3 := PressAsWritten(s2, PaymentCompleted("pay_1"));
      var s4 := PressAsWritten(s3, CheckoutClicked(Some(u), 2));
      && s3.phase.AwaitingSaves? && CheckoutEnabled(s3)
      && |s4.sent| == 3 && s4.sent[1].SaveOrder? && s4.sent[2].CreateOrder?
  {
  }
}

=== FILE: header_cart.dfy ===
/** The header's cart drawer: its copy of the cart, re-read from storage on
    every "cart-updated" broadcast, and the quantity and remove controls
    that write it back. */
module HeaderCart {
  import opened Cart
  import opened CartStorage
  import ProductListCart

  /** What the header shows: its cart and whether the cart drawer is open. */
  datatype View = View(cart: Cart, drawerOpen: bool)

  /** The header after a write, the slot it wrote, and whether it asked for
      the drawer to close. */
  datatype Change = Change(view: View, slot: Slot, closesDrawer: bool)

  /** `handleCartUpdate`: re-read the slot; when it is empty or does not
      parse, the header keeps the cart it already had. */
  function Reload(v: View, slot: Slot): (r: View)
    ensures r.drawerOpen == v.drawerOpen
    ensures slot.Holds? ==> r.cart == slot.cart
    ensures !slot.Holds? ==> r == v
  {
    View(ReadOr(slot, v.cart), v.drawerOpen)
  }

  /** `removeFromCart`: drop the line, write the slot, and close the drawer
      exactly when nothing is left. */
  function RemoveFromCart(v: View, id: string): (r: Change)
    ensures r.slot == Holds(r.view.cart)
    ensures !Has(r.view.cart, id)
    ensures forall l :: l in r.view.cart <==> l in v.cart && l.id != id
    ensures r.closesDrawer <==> r.view.cart == []
    ensures r.view.drawerOpen <==> v.drawerOpen && r.view.cart != []
  {
    var rest := Remove(v.cart, id);
    Change(View(rest, v.drawerOpen && |rest| != 0), Holds(rest), |rest| == 0)
  }

  /** `updateCartItemQuantity` in the header: below one it is exactly
      `removeFromCart`; otherwise only the matching line's quantity changes. */
  function UpdateQuantity(v: View, id: string, n: int): (r: Change)
    ensures r.slot == Holds(r.view.cart)
    ensures n < 1 ==> r == RemoveFromCart(v, id)
    ensures n >= 1 ==> !r.closesDrawer && r.view.drawerOpen == v.drawerOpen
    ensures n >= 1 ==> |r.view.cart| == |v.cart|
  {
    if n < 1 then RemoveFromCart(v, id)
    else
      var updated := WithQuantity(v.cart, id, n);
      Change(View(updated, v.drawerOpen), Holds(updated), false)
  }

  /** The header's own broadcast reaches its own listener: re-reading the
      slot it has just written changes nothing. */
  lemma ReloadAfterChange(v: View, id: string, n: int)
    ensures var r := UpdateQuantity(v, id, n); Reload(r.view, r.slot) == r.view
    ensures var r := RemoveFromCart(v, id); Reload(r.view, r.slot) == r.view
  {
  }

  /** The two copies of the quantity update, in the header and in the
      product grid, compute the same cart and write the same slot. */
  lemma {:induction false} CopiesAgree(c: Cart, drawerOpen: bool, id: string, n: int)
    ensures UpdateQuantity(View(c, drawerOpen), id, n).view.cart == ProductListCart.UpdateQuantity(c, id, n).cart
    ensures UpdateQuantity(View(c, drawerOpen), id, n).slot == ProductListCart.UpdateQuantity(c, id, n).slot
    ensures UpdateQuantity(View(c, drawerOpen), id, n).view.cart == SetQuantity(c, id, n)
  {
  }
}

=== FILE: product_list_cart.dfy ===
/** The product grid's own cart handling: adding a product (which starts
    from the stored cart) and changing a quantity (which starts from the
    grid's in-memory copy). Snackbar messages are kept as notices. */
module ProductListCart {
  import opened Cart
  import opened CartStorage

  /** The message the grid shows after an add. */
  datatype AddNotice =
    | LoginToAdd                                  // warning: not signed in
    | QuantityNow(name: string, quantity: int)    // "Cart updated: name (q)"
    | AddedNew(name: string)                      // "name added to your cart"

  /** The grid's cart, the storage slot and the message after an add. */
  datatype AddOutcome = AddOutcome(cart: Cart, slot: Slot, notice: AddNotice)

  /** `addToCart`: without a user only a warning is shown; otherwise the
      stored cart (empty if absent or unparseable) gets the product added,
      and the result becomes both the grid's cart and the stored cart. */
  function AddToCart(signedIn: bool, grid: Cart, slot: Slot, p: Product): (r: AddOutcome)
    ensures !signedIn ==> r.cart == grid && r.slot == slot && r.notice == LoginToAdd
    ensures signedIn ==> r.slot == Holds(r.cart)
    ensures signedIn ==> Count(r.cart) == Count(ReadOr(slot, [])) + 1
    ensures signedIn ==> (r.notice.QuantityNow? <==> Has(ReadOr(slot, []), p.id))
    ensures signedIn ==> !r.notice.LoginToAdd? && r.notice.name == p.name
    ensures r.notice.QuantityNow? ==>
              exists j :: 0 <= j < |r.cart| && r.cart[j].id == p.id && r.cart[j].quantity == r.notice.quantity
    ensures r.notice.QuantityNow? ==>
              r.notice.quantity == ReadOr(slot, [])[FindIndex(ReadOr(slot, []), p.id)].quantity + 1
  {
    if !signedIn then AddOutcome(grid, slot, LoginToAdd)
    else
      var base := ReadOr(slot, []);
      var updated := Add(base, p);
      var k := FindIndex(base, p.id);
      AddCountAndTotal(base, p);
      AddOutcome(updated, Holds(updated),
                 if k >= 0 then QuantityNow(p.name, updated[k].quantity) else AddedNew(p.name))
  }

  /** The grid's cart and the storage slot after a quantity change, and
      whether the "Item removed from cart" message was shown. */
  datatype GridUpdate = GridUpdate(cart: Cart, slot: Slot, removedNotice: bool)

  /** `updateCartItemQuantity` in the grid: filter the line out below one,
      otherwise map the new quantity onto it; the grid's cart effect then
      writes the result to the slot. */
  function UpdateQuantity(grid: Cart, id: string, n: int): (r: GridUpdate)
    ensures r.slot == Holds(r.cart)
    ensures r.removedNotice <==> n < 1
    ensures !Has(grid, id) ==> r.cart == grid
    ensures n < 1 ==> !Has(r.cart, id)
  {
    if n < 1 then GridUpdate(Remove(grid, id), Holds(Remove(grid, id)), true)
    else GridUpdate(WithQuantity(grid, id, n), Holds(WithQuantity(grid, id, n)), false)
  }

  /** The grid's add is the cart add applied to the stored cart: the first
      line with the product's id gains one and every other line stays in
      place, or the product's line is appended; a valid stored cart stays
      valid. */
  lemma AddToCartIsAdd(grid: Cart, slot: Slot, p: Product)
    ensures AddToCart(true, grid, slot, p).cart == Add(ReadOr(slot, []), p)
    ensures var base := ReadOr(slot, []);
            var k := FindIndex(base, p.id);
            var r := AddToCart(true, grid, slot, p);
            && (k >= 0 ==> |r.cart| == |base| && r.cart[k] == base[k].(quantity := base[k].quantity + 1)
                           && (forall j :: 0 <= j < |base| && j != k ==> r.cart[j] == base[j]))
            && (k < 0 ==> r.cart == base + [NewLine(p)])
    ensures Valid(ReadOr(slot, [])) ==> Valid(AddToCart(true, grid, slot, p).cart)
  {
    var base := ReadOr(slot, []);
    var k := FindIndex(base, p.id);
    if k >= 0 {
      AddExisting(base, p, k);
    } else {
      AddAbsent(base, p);
    }
    if Valid(base) {
      AddPreservesValid(base, p);
    }
  }

  /** The grid's add never looks at the grid's in-memory cart: two grids
      that disagree but share the slot produce the same result. */
  lemma AddToCartReadsSlot(g1: Cart, g2: Cart, slot: Slot, p: Product)
    ensures AddToCart(true, g1, slot, p) == AddToCart(true, g2, slot, p)
    ensures slot.Garbled? || slot.Empty? ==> AddToCart(true, g1, slot, p).cart == [NewLine(p)]
  {
  }
}

=== FILE: status_colors.dfy ===
/** The admin dashboard's chip colour for an order status, matched without
    regard to letter case. */
module StatusColors {
  import opened Wrappers

  /** The chip colours the dashboard uses. */
  datatype Color = Success | Warning | Error | Default | Info

  /** Lower-case one character (ASCII letters; every other character is kept). */
  function LowerChar(c: char): char {
    if 'A' <= c <= 'Z' then (c as int + 32) as char else c
  }

  /** `toLowerCase` on a string, character by character. */
  function Lower(s: string): (r: string)
    ensures |r| == |s|
    ensures forall i :: 0 <= i < |s| ==> r[i] == LowerChar(s[i])
  {
    if |s| == 0 then "" else [LowerChar(s[0])] + Lower(s[1..])
  }

  /** Two strings that differ at most in letter case. */
  predicate SameIgnoringCase(s: string, t: string) {
    |s| == |t| && forall i :: 0 <= i < |s| ==> LowerChar(s[i]) == LowerChar(t[i])
  }

  /** `getStatusColor`: lower-case the status and pick the colour; a
      missing status and every unlisted status are `Info`. */
  function StatusColor(status: Option<string>): (c: Color)
    ensures c == Success <==> status.Some? && SameIgnoringCase(status.value, "completed")
    ensures c == Warning <==> status.Some? && SameIgnoringCase(status.value, "pending")
    ensures c == Error <==> status.Some? && SameIgnoringCase(status.value, "failed")
    ensures c == Default <==> status.Some? && SameIgnoringCase(status.value, "cancelled")
    ensures status.None? ==> c == Info
  {
    if status.None? then Info
    else
      var s := status.value;
      LowerMatches(s, "completed");
      LowerMatches(s, "pending");
      LowerMatches(s, "failed");
      LowerMatches(s, "cancelled");
      match Lower(s)
      case "completed" => Success
      case "pending" => Warning
      case "failed" => Error
      case "cancelled" => Default
      case _ => Info
  }

  /** For an all-lower-case target, lower-casing hits it exactly when the
      string equals it up to letter case. */
  lemma LowerMatches(s: string, t: string)
    requires forall i :: 0 <= i < |t| ==> LowerChar(t[i]) == t[i]
    ensures Lower(s) == t <==> SameIgnoringCase(s, t)
  {
    if SameIgnoringCase(s, t) {
      assert forall i :: 0 <= i < |s| ==> Lower(s)[i] == t[i];
    }
  }

  /** Strings equal up to case get the same colour, so "COMPLETED" and
      "Completed" are coloured as "completed" is. */
  lemma {:induction false} ColorIgnoresCase(s: string, t: string)
    requires SameIgnoringCase(s, t)
    ensures StatusColor(Some(s)) == StatusColor(Some(t))
  {
    forall u: string | SameIgnoringCase(s, u)
      ensures SameIgnoringCase(t, u)
    {
    }
    forall u: string | SameIgnoringCase(t, u)
      ensures SameIgnoringCase(s, u)
    {
    }
  }

  /** Each listed status gets its colour, and a missing status is `Info`. */
  lemma ListedStatuses()
    ensures StatusColor(Some("completed")) == Success
    ensures StatusColor(Some("pending")) == Warning
    ensures StatusColor(Some("failed")) == Error
    ensures StatusColor(Some("cancelled")) == Default
    ensures StatusColor(None) == Info
  {
    assert SameIgnoringCase("completed", "completed");
    assert SameIgnoringCase("pending", "pending");
    assert SameIgnoringCase("failed", "failed");
    assert SameIgnoringCase("cancelled", "cancelled");
  }

  /** The upper-case spelling is coloured as the lower-case one. */
  lemma UpperCaseStatus()
    ensures StatusColor(Some("COMPLETED")) == Success
  {
    var s := "COMPLETED";
    assert SameIgnoringCase(s, "completed") by {
      forall i | 0 <= i < |s|
        ensures LowerChar(s[i]) == LowerChar("completed"[i])
      {
      }
    }
  }

  /** "paid", the status the checkout writes, is none of the listed ones. */
  lemma PaidIsInfo()
    ensures StatusColor(Some("paid")) == Info
  {
    assert !SameIgnoringCase("paid", "completed");
    assert !SameIgnoringCase("paid", "pending");
    assert !SameIgnoringCase("paid", "failed");
    assert !SameIgnoringCase("paid", "cancelled");
  }
}

=== FILE: storefront.dfy ===
/** A shopper's page: the product grid and the header are mounted together
    and share the storage slot. Every write is followed by a "cart-updated"
    broadcast that carries no payload; a listener re-reads the slot.

    As written, only the header listens. The grid keeps its own copy, and
    its quantity controls write that copy back to the slot, so a change the
    header made is undone (`StepAsWritten`, `StaleGridRestoresRemovedLine`).
    `Step` is the evidently intended behaviour, in which the grid also
    re-reads the slot on the broadcast; it keeps the two copies and the slot
    in agreement (`StepKeepsSynced`). */
module Storefront {
  import opened Cart
  import opened CartStorage
  import ProductListCart
  import HeaderCart

  /** The grid's cart, the header's view, and the shared slot. */
  datatype State = State(grid: Cart, header: HeaderCart.View, slot: Slot)

  /** The cart operations a shopper can trigger on this page. */
  datatype Action =
    | GridAdd(signedIn: bool, product: Product)
    | GridSetQuantity(gridId: string, gridQuantity: int)
    | HeaderSetQuantity(headerId: string, headerQuantity: int)
    | HeaderRemove(removedId: string)
    | CheckoutCleared   // the header empties the cart after every order was saved

  /** Page load: both components read the slot with an empty fallback, and
      the grid's cart effect writes its cart back to the slot. */
  function Open(slot: Slot): (s: State)
    ensures Synced(s)
    ensures slot.Holds? ==> s.grid == slot.cart
    ensures !slot.Holds? ==> s.grid == [] && s.header.cart == [] && s.slot == Holds([])
  {
    var c := ReadOr(slot, []);
    State(c, HeaderCart.View(c, false), Holds(c))
  }

  /** What the acting component does before the broadcast is delivered;
      the second result says whether anything was broadcast. */
  function Act(s: State, a: Action): (r: (State, bool))
    ensures (a.GridAdd? || a.GridSetQuantity?) ==> r.0.header == s.header
    ensures !(a.GridAdd? || a.GridSetQuantity?) ==> r.0.grid == s.grid
    ensures r.1 <==> !(a.GridAdd? && !a.signedIn)
    ensures !r.1 ==> r.0 == s
  {
    match a
    case GridAdd(signedIn, p) =>
      var r := ProductListCart.AddToCart(signedIn, s.grid, s.slot, p);
      (s.(grid := r.cart, slot := r.slot), signedIn)
    case GridSetQuantity(id, n) =>
      var r := ProductListCart.UpdateQuantity(s.grid, id, n);
      (s.(grid := r.cart, slot := r.slot), true)
    case HeaderSetQuantity(id, n) =>
      var r := HeaderCart.UpdateQuantity(s.header, id, n);
      (s.(header := r.view, slot := r.slot), true)
    case HeaderRemove(id) =>
      var r := HeaderCart.RemoveFromCart(s.header, id);
      (s.(header := r.view, slot := r.slot), true)
    case CheckoutCleared =>
      (s.(header := HeaderCart.View([], false), slot := Holds([])), true)
  }

  /** The page as written: the broadcast reaches the header only. */
  function StepAsWritten(s: State, a: Action): (t: State)
    ensures t.slot == Act(s, a).0.slot && t.grid == Act(s, a).0.grid
    ensures Act(s, a).1 && t.slot.Holds? ==> t.header.cart == t.slot.cart
  {
    var (t, broadcast) := Act(s, a);
    if broadcast then t.(header := HeaderCart.Reload(t.header, t.slot)) else t
  }

  /** The page as intended: the grid re-reads the slot on the broadcast too. */
  function Step(s: State, a: Action): (t: State)
    ensures t.slot == Act(s, a).0.slot
    ensures Act(s, a).1 && t.slot.Holds? ==> t.grid == t.slot.cart && t.header.cart == t.slot.cart
  {
    var (t, broadcast) := Act(s, a);
    if broadcast then t.(header := HeaderCart.Reload(t.header, t.slot), grid := ReadOr(t.slot, t.grid))
    else t
  }

  /** Both components show the stored cart. */
  predicate Synced(s: State) {
    s.slot == Holds(s.grid) && s.header.cart == s.grid
  }

  /** With the grid listening, every action leaves grid, header and slot in
      agreement, and each broadcast-free action changes nothing. */
  lemma StepKeepsSynced(s: State, a: Action)
    requires Synced(s)
    ensures Synced(Step(s, a))
    ensures a.GridAdd? && !a.signedIn ==> Step(s, a) == s
  {
  }

  /** With the grid listening, reloading the page after any action shows
      the cart both components were already showing. */
  lemma ReloadShowsSameCart(s: State, a: Action)
    requires Synced(s)
    ensures Open(Step(s, a).slot).grid == Step(s, a).grid
    ensures Open(Step(s, a).slot).header.cart == Step(s, a).header.cart
  {
    StepKeepsSynced(s, a);
  }

  /** With the grid listening, a line the header removed stays removed when
      the shopper then changes another product's quantity in the grid. */
  lemma RemovedLineStaysRemoved(s: State, id: string, other: string, n: int)
    requires Synced(s)
    ensures var t := Step(Step(s, HeaderRemove(id)), GridSetQuantity(other, n));
            t.slot.Holds? && !Has(t.slot.cart, id) && Synced(t)
  {
    StepKeepsSynced(s, HeaderRemove(id));
    var s1 := Step(s, HeaderRemove(id));
    assert !Has(s1.grid, id);
    var r := ProductListCart.UpdateQuantity(s1.grid, other, n);
    if n >= 1 {
      forall j | 0 <= j < |r.cart|
        ensures r.cart[j].id != id
      {
        assert r.cart[j].id == s1.grid[j].id;
      }
    } else {
      forall j | 0 <= j < |r.cart|
        ensures r.cart[j].id != id
      {
        assert r.cart[j] in s1.grid;
      }
    }
    StepKeepsSynced(s1, GridSetQuantity(other, n));
  }

  /** As written, the grid's stale copy brings a removed line back: the
      header removes "a", then a "+" in the grid on "b" writes the grid's
      old cart, still holding "a", to the slot, and the header re-reads it. */
  lemma StaleGridRestoresRemovedLine()
    ensures
      var a := Line("a", "Kettle", 900, "kettle.png", 1);
      var b := Line("b", "Mug", 250, "mug.png", 1);
      var s0 := State([a, b], HeaderCart.View([a, b], true), Holds([a, b]));
      var s1 := StepAsWritten(s0, HeaderRemove("a"));
      var s2 := StepAsWritten(s1, GridSetQuantity("b", 2));
      && Synced(s0)
      && s1.slot == Holds([b]) && s1.header.cart == [b]
      && s2.slot == Holds([a, b.(quantity := 2)])
      && Has(s2.header.cart, "a")
  {
    var a := Line("a", "Kettle", 900, "kettle.png", 1);
    var b := Line("b", "Mug", 250, "mug.png", 1);
    assert Remove([a, b], "a") == [b] by {
      assert [a, b][1..] == [b];
      assert Remove([b], "a") == [b];
    }
    assert WithQuantity([a, b], "b", 2) == [a, b.(quantity := 2)];
    var s2 := StepAsWritten(StepAsWritten(State([a, b], HeaderCart.View([a, b], true), Holds([a, b])), HeaderRemove("a")), GridSetQuantity("b", 2));
    assert s2.header.cart[0] == a;
  }
}

=== FILE: wrappers.dfy ===
/** The optional-value datatype shared by the other modules: JavaScript's
    `undefined`/`null` become `None`. */
module Wrappers {

  datatype Option<+T> = None | Some(value: T)

  /** JavaScript truthiness of an optional string: present and non-empty. */
  predicate Truthy(s: Option<string>) {
    s.Some? && s.value != ""
  }
}
